=== FILE: README.md ===
# Federated TLS authentication metadata: fetch, verify, cache — a Dafny model

This project models two small sequential pieces of the federated TLS
authentication tools and proves properties of them.

1. **The metadata fetcher** (`tools/fetch_metadata.py`). It downloads a JWS in
   the general JSON serialization (section 7.2.1 of RFC 7515). It walks the
   `signatures` array in document order. For each entry it rebuilds the compact
   form `protected.payload.signature` (section 7.1 of RFC 7515) and reads the
   entry's `exp` from the unverified header. An expired entry is skipped
   without calling the verifier. Otherwise the entry goes to the verifier. The
   first entry that verifies has its payload written to the output file.
   Before any of this, a cached copy is reused when it is still fresh by its
   own `cache_ttl` (default 3600 seconds).
2. **The tag-list splitter** of the command-line client (`src/get.cpp`,
   `parse_tags`). It splits a comma-separated string with `std::getline`
   semantics.

Modules:

- `Wrappers` (wrappers.dfy): `Option`.
- `Delimited` (delimited.dfy): joining tokens with a one-character
  separator; the join of separator-free tokens determines the tokens. This is
  shared by the compact JWS form and the tag list.
- `Tags` (tags.dfy): `Getline` is one `std::getline` call, and `ParseTags` is
  the loop around it. `Tokenizes` is an independent reference relation between
  a specification and its tags. The lemmas prove that `ParseTags` gives a
  tokenization, that it is the only one, the round trip, the token count and
  the empty-field cases.
- `Signatures` (signatures.dfy): `Evaluate` is one iteration of the loop.
  `SelectFrom`/`Select` is the loop as a recursive reference definition.
  `VerifyEntries` is the loop as the program runs it, instrumented with the
  verifier calls it makes; `EvaluateEntry` is its loop body.
- `Freshness` (freshness.dfy): `still_valid`.
- `FetchMetadata` (fetch_metadata.dfy): `get_and_verify` and the
  cache-or-fetch choice of the `__main__` block, over a file system value
  (`Store`).

The JOSE library (`get_unverified_headers`, `verify`) and the JSON decoders
are function-typed inputs (`Jose`, `Foreign`). Every property holds for all
of them. The download is an input `Option<Bytes>` (`None` when `urlopen`
raises `URLError`). The clock is one integer reading `now` in Unix seconds for the whole run. File
modification times are integers in `Store`.

Outcomes follow the code. `get_and_verify` returning `False` is
`Failed(...)`: download failure, unreadable key file, or no valid
signature. Writing the payload is `Written(payload)`. Every exception
nothing catches is a distinct `Abort`/`Crashed` outcome, never a skip or a
stale cache. Those exceptions are: a download that is not JSON; a missing
`payload` or `signatures` member; an entry with a missing member; a header
without `exp`, or with an `exp` that `int()` cannot convert; a verifier call
that raises anything other than `JWSError`; an output that cannot be opened;
a cached file whose `cache_ttl` cannot be read. `int()` accepts a number
(truncating a float) or a string of digits; the header reader is taken to
return the converted value.

In particular, a header without `exp` ends the run: the `KeyError` is not
caught by `except jws.JWSError` (fetch_metadata.py:51, 61). An unparsable
cached file ends the run too; it is not treated as stale
(fetch_metadata.py:69-70). The output is written directly, with no
temporary file and rename.

## Model

| member | source | states |
|---|---|---|
| `Tags.Getline` | src/get.cpp:58 | One `getline(ss, token, ',')` from a position with input left: the token holds no comma and is the text up to the next comma, which is consumed, or up to the end of input. |
| `Tags.ParseTags` | src/get.cpp:53-62 | The result of `parse_tags` is a tokenization of the input: tokens hold no comma, their join is the input less one trailing comma, and only the empty input has no tokens. |
| `Tags.TokenizesCons` | src/get.cpp:58-60 | Reading one comma-free field and then a tokenization of the non-empty remainder after its comma gives a tokenization of the whole. |
| `Tags.ParseTagsUnique` | src/get.cpp:53-62 | Any token list that tokenizes the input equals what `parse_tags` returns, so the tokens are in left-to-right order and nothing is lost or invented. |
| `Tags.ParseTagsRoundTrip` | src/get.cpp:58-60 | Joining the tokens with "," gives the input back when it does not end with ","; when it does, join plus "," gives the input. |
| `Tags.ParseTagsTokens` | src/get.cpp:55-62 | No token contains a comma, and the list is empty exactly when the input is empty. |
| `Tags.ParseTagsCount` | src/get.cpp:58-60 | For non-empty input the token count is the number of commas plus one, minus one when the input ends with a comma. |
| `Tags.ParseTagsKeepsInnerEmptyField` | src/get.cpp:58-60 | `"a,,b"` gives `["a", "", "b"]`: an empty field between commas is kept. |
| `Tags.ParseTagsKeepsLeadingEmptyField` | src/get.cpp:58-60 | `","` gives `[""]` and `",a"` gives `["", "a"]`: a leading empty field is kept. |
| `Tags.ParseTagsDropsOneTrailingField` | src/get.cpp:58-60 | `"a,b,"` gives `["a", "b"]` and `"a,,"` gives `["a", ""]`: only the single empty field after a final comma is dropped. |
| `Signatures.JoinOfThree` | tools/fetch_metadata.py:49 | The compact form is the '.'-join of protected header, shared payload and signature. |
| `Signatures.CompactUnambiguous` | tools/fetch_metadata.py:47-49 | For dot-free parts the compact form determines protected header, payload and signature. |
| `Signatures.EvaluateConsultsVerifierOnlyWhenUnexpired` | tools/fetch_metadata.py:49-57 | An entry is accepted only if it reaches the verifier, with exactly what the verifier returned for its compact form; an entry that does not reach it is judged the same under any verifier; `exp == now` still reaches it. |
| `Signatures.SelectFrom` | tools/fetch_metadata.py:45-62 | The loop's decision: a verified or aborting entry is accepted resp. raises in `Evaluate`, and every entry before the stopping point is rejected. |
| `Signatures.FirstValidWins` | tools/fetch_metadata.py:45-60 | The selection is `Verified(k, p)` exactly when entry `k` is accepted with payload `p` and every earlier entry is rejected. |
| `Signatures.FirstFaultAborts` | tools/fetch_metadata.py:46-62 | The selection is `Aborted(k, f)` exactly when entry `k` raises `f` (a missing member, a missing `exp`, an `exp` that `int()` cannot convert, or a verifier exception other than `JWSError`) and every earlier entry is rejected. |
| `Signatures.NoneValidIffAllRejected` | tools/fetch_metadata.py:45-65 | Nothing verifies exactly when every entry is rejected; an empty `signatures` array verifies nothing. |
| `Signatures.LaterEntriesIgnored` | tools/fetch_metadata.py:57-60 | Entries after the deciding one are never looked at: any array that agrees up to it decides identically. |
| `Signatures.OnlyUnexpiredEntriesReachVerifier` | tools/fetch_metadata.py:51-57 | Two verifiers that agree on the compact forms of unexpired, well-formed entries give the same selection: expired entries never reach the verifier. |
| `Signatures.VerifierCallsSanctioned` | tools/fetch_metadata.py:49-57 | Each expected verifier call is made on a well-formed, unexpired entry with its `protected.payload.signature` over the shared payload; the calls go in strictly increasing document order, so at most once per entry. |
| `Signatures.VerifierCallsComplete` | tools/fetch_metadata.py:49-57 | Every well-formed, unexpired entry in range is among the expected verifier calls. |
| `Signatures.Evaluate` | tools/fetch_metadata.py:46-62 | An entry is rejected (skipped) exactly when it is well-formed and its header is unreadable, or it has expired, or the verifier raises `JWSError`. It crashes the run exactly when a field is missing, `exp` is absent or not convertible by `int()`, or the verifier raises anything else. It is accepted exactly when the verifier returns a payload, and then with that payload. An expired entry is rejected with its `exp`. |
| `Signatures.EntryPassedOverOrFatal` | tools/fetch_metadata.py:45-62 | At each position of the loop, an unreadable header, an expired `exp` or a `JWSError` hands the decision to the next entry. A missing field, a missing or unconvertible `exp`, or another verifier exception aborts at that index with the matching fault. A payload from the verifier stops the loop there with that payload. |
| `Signatures.EvaluateEntry` | tools/fetch_metadata.py:46-62 | One pass of the `try` block gives the reference verdict, and it calls the verifier, with the entry's compact form, exactly when the entry is well-formed and unexpired. |
| `Signatures.VerifyEntries` | tools/fetch_metadata.py:44-65 | The loop as run returns the reference selection, and the verifier calls it makes are exactly the expected calls up to and including the deciding entry. |
| `Freshness.CacheTtl` | tools/fetch_metadata.py:69-72 | The TTL is `cache_ttl` when present, 3600 when absent, and reading it raises when the file is malformed. |
| `Freshness.StillValid` | tools/fetch_metadata.py:67-75 | The cached copy is fresh exactly when its age `now - mtime` is below the TTL; a malformed file gives no verdict (the run aborts). |
| `Freshness.FreshnessBoundary` | tools/fetch_metadata.py:75 | The check is strict: at `mtime + ttl` the copy is stale, one second earlier it is fresh. |
| `Freshness.FreshnessMonotone` | tools/fetch_metadata.py:75 | Fresh at a time implies fresh at every earlier time; stale implies stale at every later time. |
| `Freshness.FreshnessExamples` | tools/fetch_metadata.py:72-75 | No `cache_ttl` behaves as 3600 seconds; with `cache_ttl` 10 a copy is fresh after 5 seconds and stale after 15. |
| `FetchMetadata.WriteFile` | tools/fetch_metadata.py:58-59 | Writing sets the output file to the payload with the current time and changes no other file. |
| `FetchMetadata.GetAndVerify` | tools/fetch_metadata.py:26-65 | Only `Written` changes the store, and only the output file; a failed download returns `False` before anything else; an unreadable key file returns `False` before any envelope member or signature is read. |
| `FetchMetadata.WrittenIsFirstValid` | tools/fetch_metadata.py:44-60 | The payload written is that of the first unexpired entry that verifies under the key file. It is written whenever such an entry exists, every entry before it is rejected (expired, unreadable header or `JWSError`), and envelope, keys and output are usable. |
| `FetchMetadata.LoopFailuresSurface` | tools/fetch_metadata.py:44-65 | With a usable envelope and key file, `get_and_verify` returns `False` (`NoValidSignature`) exactly when every entry is rejected, including an empty array, and aborts at entry `k` with `f`, rather than returning `False`, exactly when that entry is the first to raise. |
| `FetchMetadata.CacheVerdict` | tools/fetch_metadata.py:103 | The cache branch is taken only for a given, existing cached file; the network branch exactly when none is given, it does not exist, or it is stale; a malformed cached file aborts. |
| `FetchMetadata.CopyCached` | tools/fetch_metadata.py:104-110 | A copy onto the same path succeeds with no change; otherwise it succeeds with the output holding the cached bytes, or exits 2 with nothing changed when the output cannot be written. |
| `FetchMetadata.Run` | tools/fetch_metadata.py:103-113 | The exit status is 0, 1 or 2; any run that does not exit 0 leaves the store unchanged; exit 2 only on the cache branch and exit 1 only on the network branch. |
| `FetchMetadata.FreshCacheNeedsNoNetwork` | tools/fetch_metadata.py:103-107 | With a fresh cache the run does not depend on the download, and on success the output holds the cached bytes. |
| `FetchMetadata.StaleCacheFetches` | tools/fetch_metadata.py:112-113 | Without a usable cache the run is `get_and_verify`: written means exit 0, `False` means exit 1, an exception ends the run, with its effect on the store. |
| `FetchMetadata.UnparsableCacheAborts` | tools/fetch_metadata.py:67-70 | A cached file whose `cache_ttl` cannot be read ends the run with nothing written; it is not treated as stale. |
| `FetchMetadata.UnreachableUrlLeavesOutput` | tools/fetch_metadata.py:28-33 | With no usable cache, an unreachable URL exits 1 and leaves every file untouched. |

## Left out

- Network I/O: `urlopen` (fetch_metadata.py:29) is the `download` input. Exceptions from it other than `URLError` are not modelled. `http_get` and libcurl (get.cpp:16-50) are not part of this model.
- Cryptography and header decoding in the JOSE library are uninterpreted inputs (`Jose`). JSON and base64url decoding are too (`Foreign`). The model takes their results, already decoded.
- Signatures.Evaluate: `datetime.utcfromtimestamp` raising for an out-of-range `exp` is not modelled; every integer `exp` is a time.
- Signatures.Evaluate: times are whole seconds. The source compares `exp` with `utcnow()`, which has microseconds, so at `exp == now` it treats the entry as expired once any fraction of that second has passed. The model treats `exp == now` as not expired.
- Signatures.SelectFrom: one clock reading `now` stands for every clock read of the run. The source calls `datetime.utcnow()` afresh for each entry (fetch_metadata.py:53), so in a slow loop a later entry is compared with a later time than an earlier one. The same single reading is used by `time.time()` in `still_valid` (fetch_metadata.py:75) and as the mtime the write leaves on the output (fetch_metadata.py:58).
- FetchMetadata.Run: uses the same single reading `now` for the freshness check, the per-entry expiry checks and the new output's mtime; the source reads the clock separately for each.
- Freshness.StillValid: `time.time()` and `getmtime` are floats in the source; the model uses whole seconds, and a fractional `cache_ttl` is not modelled.
- A `payload` member that is present but not a string is treated like a missing one (an abort). In the source it only raises when it is concatenated, so with an empty `signatures` array the source returns `False` instead.
- Decoding the key file and the cached file as text can raise `UnicodeDecodeError`, which ends the run. This is not modelled: a key file is either readable (in `Store.files`) or not.
- A write that fails after the output file was opened would leave a truncated file. This is not modelled: writing either succeeds (`Store.writable`) or fails when opening, before anything changes.
- FetchMetadata.CopyCached: `shutil.copyfile` detects the same file by inode (`os.path.samefile`); the model compares paths. A copy that fails half-way is not modelled.
- Python reports an uncaught exception with exit status 1 after a traceback. The model keeps it as the distinct `Crashed` outcome.
- Argument parsing, the default URL and `error_print` (fetch_metadata.py:19-23, 79-101) are not modelled. Neither is `main` of get.cpp (get.cpp:65-106).
- `get_server_by_tags` and `concatenate_keys` (get.cpp:37, 93) are in files that are not part of this model.
- Concurrent runs writing the same output are not modelled; the source has no locking or atomic rename.

=== FILE: delimited.dfy ===
/** Strings built from tokens with a one-character separator between
    neighbours. Both the compact JWS form (separator '.') and the tag list of
    the command-line client (separator ',') are of this shape. */
module Delimited {

  /** The tokens with `sep` between each two neighbours. */
  function Join(tokens: seq<string>, sep: char): string
  {
    if |tokens| == 0 then ""
    else if |tokens| == 1 then tokens[0]
    else tokens[0] + [sep] + Join(tokens[1..], sep)
  }

  /** No token contains the separator. */
  predicate Free(tokens: seq<string>, sep: char)
  {
    forall k | 0 <= k < |tokens| :: sep !in tokens[k]
  }

  /** Position of the first `sep` at or after `i`, or |s| when there is none. */
  function Find(s: string, sep: char, i: nat): (j: nat)
    requires i <= |s|
    ensures i <= j <= |s|
    ensures j < |s| ==> s[j] == sep
    ensures forall k | i <= k < j :: s[k] != sep
    decreases |s| - i
  {
    if i == |s| || s[i] == sep then i else Find(s, sep, i + 1)
  }

  /** Joining a first token onto a non-empty remainder puts exactly one
      separator between them. */
  lemma JoinCons(a: string, rest: seq<string>, sep: char)
    requires |rest| > 0
    ensures Join([a] + rest, sep) == a + [sep] + Join(rest, sep)
  {
    assert ([a] + rest)[1..] == rest;
  }

  /** Prepending a separator-free token keeps a list separator-free. */
  lemma FreeCons(a: string, rest: seq<string>, sep: char)
    requires sep !in a && Free(rest, sep)
    ensures Free([a] + rest, sep)
  {
    forall k | 0 <= k < |[a] + rest|
      ensures sep !in ([a] + rest)[k]
    {
      if k > 0 { assert ([a] + rest)[k] == rest[k - 1]; }
    }
  }

  /** In a join of separator-free tokens, the first separator sits right
      after the first token, and what follows it is the join of the rest. */
  lemma JoinHead(tokens: seq<string>, sep: char)
    requires |tokens| > 0 && Free(tokens, sep)
    ensures |tokens| == 1 ==> Join(tokens, sep) == tokens[0]
    ensures |tokens| > 1 ==> |Join(tokens, sep)| > |tokens[0]|
    ensures |tokens| > 1 ==> Join(tokens, sep)[|tokens[0]|] == sep
    ensures |tokens| > 1 ==> Join(tokens, sep)[|tokens[0]| + 1..] == Join(tokens[1..], sep)
    ensures Join(tokens, sep)[..|tokens[0]|] == tokens[0]
    ensures Find(Join(tokens, sep), sep, 0) == |tokens[0]|
  {
    var j := Join(tokens, sep);
    var a := tokens[0];
    assert sep !in a;
    assert forall k | 0 <= k < |a| :: j[k] == a[k];
  }

  /** Joining separator-free, non-empty token lists loses nothing: the join
      determines the tokens. */
  lemma {:induction false} JoinInjective(t1: seq<string>, t2: seq<string>, sep: char)
    requires |t1| > 0 && |t2| > 0
    requires Free(t1, sep) && Free(t2, sep)
    requires Join(t1, sep) == Join(t2, sep)
    ensures t1 == t2
  {
    JoinHead(t1, sep);
    JoinHead(t2, sep);
    assert t1[0] == t2[0];
    if |t1| > 1 {
      assert |t2| > 1;
      assert Free(t1[1..], sep) && Free(t2[1..], sep);
      JoinInjective(t1[1..], t2[1..], sep);
      assert t1 == [t1[0]] + t1[1..];
      assert t2 == [t2[0]] + t2[1..];
    }
  }

  /** A join of n separator-free tokens holds exactly n - 1 separators. */
  lemma {:induction false} JoinCount(tokens: seq<string>, sep: char)
    requires |tokens| > 0 && Free(tokens, sep)
    ensures multiset(Join(tokens, sep))[sep] == |tokens| - 1
  {
    assert sep !in tokens[0];
    assert multiset(tokens[0])[sep] == 0;
    if |tokens| > 1 {
      assert Free(tokens[1..], sep);
      JoinCount(tokens[1..], sep);
      assert Join(tokens, sep) == tokens[0] + [sep] + Join(tokens[1..], sep);
      assert multiset(Join(tokens, sep))
          == multiset(tokens[0]) + multiset([sep]) + multiset(Join(tokens[1..], sep));
    }
  }
}

=== FILE: fetch_metadata.dfy ===
/** The metadata fetcher's top level (tools/fetch_metadata.py): download and
    verify (`get_and_verify`), and the choice between reusing a fresh cached
    copy and fetching anew (the `__main__` block). The network, the file
    system, the clock and the JSON and JOSE libraries are inputs; the file
    system is a value that an operation returns updated. */
module FetchMetadata {
  import opened Wrappers
  import opened Signatures
  import opened Freshness

  type Path = string

  datatype File = File(content: Bytes, mtime: int)

  /** The regular files by path, and the paths a file can be written to
      (an existing, permitted directory). */
  datatype Store = Store(files: map<Path, File>, writable: set<Path>)

  /** The foreign libraries: JOSE, decoding the downloaded document as JSON
      (`None` when `json.loads` raises), and reading `cache_ttl` from a
      cached file. */
  datatype Foreign = Foreign(jose: Jose, parseEnvelope: Bytes -> Option<Envelope>, readTtl: Bytes -> TtlField)

  /** The reasons `get_and_verify` returns `False`. */
  datatype Failure = DownloadFailed | KeySetUnreadable | NoValidSignature

  /** The exceptions nothing catches; each ends the run. */
  datatype Crash =
    | EnvelopeNotJson                          // json.loads of the download
    | EnvelopeIncomplete                       // `payload` or `signatures` missing
    | EntryFault(index: nat, fault: Fault)     // raised while evaluating a signature entry
    | OutputUnwritable                         // opening the output for writing
    | CacheUnparsable                          // reading `cache_ttl` from the cached file

  datatype Outcome = Written(payload: Bytes) | Failed(failure: Failure) | Abort(crash: Crash)

  /** An outcome together with the file system it leaves. */
  datatype Effect = Effect(outcome: Outcome, store: Store)

  /** The store with `content` written at `path` at time `now`. */
  function WriteFile(store: Store, path: Path, content: Bytes, now: int): (s: Store)
    ensures s.writable == store.writable
    ensures path in s.files && s.files[path] == File(content, now)
    ensures forall q | q in store.files && q != path :: q in s.files && s.files[q] == store.files[q]
    ensures forall q | q in s.files :: q in store.files || q == path
  {
    store.(files := store.files[path := File(content, now)])
  }

  /** `get_and_verify(url, keys, output)`, with `download` the body fetched
      from `url` (`None` when the download fails). Only a `Written` outcome
      touches the store, and then only the output file; a download failure
      comes before anything else, and an unreadable key set before any
      member of the envelope is read. */
  function GetAndVerify(foreign: Foreign, download: Option<Bytes>, store: Store, keys: Path, output: Path, now: int): (e: Effect)
    ensures !e.outcome.Written? ==> e.store == store
    ensures e.outcome.Written? ==> output in store.writable && e.store == WriteFile(store, output, e.outcome.payload, now)
    ensures download.None? ==> e == Effect(Failed(DownloadFailed), store)
    ensures download.Some? && foreign.parseEnvelope(download.value).Some? && keys !in store.files ==>
              e == Effect(Failed(KeySetUnreadable), store)
    ensures e.outcome == Failed(DownloadFailed) <==> download.None?
  {
    match download
    case None => Effect(Failed(DownloadFailed), store)
    case Some(body) =>
      match foreign.parseEnvelope(body)
      case None => Effect(Abort(EnvelopeNotJson), store)
      case Some(env) =>
        if keys !in store.files then Effect(Failed(KeySetUnreadable), store)
        else if env.payload.None? || env.signatures.None? then Effect(Abort(EnvelopeIncomplete), store)
        else
          match Select(foreign.jose, env.signatures.value, env.payload.value, store.files[keys].content, now)
          case NoneValid => Effect(Failed(NoValidSignature), store)
          case Aborted(i, f) => Effect(Abort(EntryFault(i, f)), store)
          case Verified(_, p) =>
            if output in store.writable then Effect(Written(p), WriteFile(store, output, p, now))
            else Effect(Abort(OutputUnwritable), store)
  }

  /** What is written is the payload of the first entry, in document order,
      that is unexpired and verifies under the key file's content; and
      whenever such an entry exists (preceded only by rejected entries) and
      the envelope, key set and output are all usable, it is written. */
  lemma WrittenIsFirstValid(foreign: Foreign, body: Bytes, store: Store, keys: Path, output: Path, now: int, p: Bytes)
    ensures GetAndVerify(foreign, Some(body), store, keys, output, now).outcome == Written(p) <==>
            && foreign.parseEnvelope(body).Some?
            && var env := foreign.parseEnvelope(body).value;
            && env.payload.Some? && env.signatures.Some?
            && keys in store.files && output in store.writable
            && exists k :: FirstAccepted(foreign.jose, env.signatures.value, env.payload.value,
                                         store.files[keys].content, now, k, p)
  {
    if foreign.parseEnvelope(body).Some? {
      var env := foreign.parseEnvelope(body).value;
      if env.payload.Some? && env.signatures.Some? && keys in store.files {
        var entries, payload, keyset := env.signatures.value, env.payload.value, store.files[keys].content;
        var r := Select(foreign.jose, entries, payload, keyset, now);
        if r.Verified? {
          FirstValidWins(foreign.jose, entries, payload, keyset, now, r.index, r.payload);
        }
        forall k | FirstAccepted(foreign.jose, entries, payload, keyset, now, k, p)
          ensures r == Verified(k, p)
        {
          FirstValidWins(foreign.jose, entries, payload, keyset, now, k, p);
        }
      }
    }
  }

  /** With a decodable envelope holding both members and a readable key
      file, the two other ends of the loop surface as follows: `False`
      (`Failed(NoValidSignature)`) exactly when every entry is rejected,
      including an empty array; and an abort at entry `k` with fault `f`,
      not `False`, exactly when that entry raises `f` after only rejected
      ones. */
  lemma LoopFailuresSurface(foreign: Foreign, body: Bytes, store: Store, keys: Path, output: Path, now: int,
                            k: nat, f: Fault)
    requires foreign.parseEnvelope(body).Some?
    requires foreign.parseEnvelope(body).value.payload.Some?
    requires foreign.parseEnvelope(body).value.signatures.Some?
    requires keys in store.files
    ensures var env := foreign.parseEnvelope(body).value;
            GetAndVerify(foreign, Some(body), store, keys, output, now).outcome == Failed(NoValidSignature) <==>
            forall j | 0 <= j < |env.signatures.value| ::
              Evaluate(foreign.jose, env.signatures.value[j], env.payload.value, store.files[keys].content, now).Reject?
    ensures var env := foreign.parseEnvelope(body).value;
            GetAndVerify(foreign, Some(body), store, keys, output, now).outcome == Abort(EntryFault(k, f)) <==>
            FirstCrashed(foreign.jose, env.signatures.value, env.payload.value, store.files[keys].content, now, k, f)
  {
    var env := foreign.parseEnvelope(body).value;
    var entries, payload, keyset := env.signatures.value, env.payload.value, store.files[keys].content;
    NoneValidIffAllRejected(foreign.jose, entries, payload, keyset, now);
    FirstFaultAborts(foreign.jose, entries, payload, keyset, now, k, f);
  }

  /** Command-line arguments that reach the core; the URL is implicit in
      the `download` input. */
  datatype Args = Args(keys: Path, output: Path, cached: Option<Path>)

  /** How the process ends: an exit status, or an uncaught exception. */
  datatype Termination = Exit(status: int) | Crashed(crash: Crash)

  datatype Completion = Completion(end: Termination, store: Store)

  /** The condition of the cache branch: `Some(true)` when a cached path is
      given, is a regular file and is still valid; `Some(false)` when the
      network must be used; `None` when `still_valid` raises. */
  function CacheVerdict(foreign: Foreign, store: Store, cached: Option<Path>, now: int): (v: Option<bool>)
    ensures v == Some(true) ==> cached.Some? && cached.value in store.files
    ensures v.None? <==> cached.Some? && cached.value in store.files &&
                         foreign.readTtl(store.files[cached.value].content).Malformed?
    ensures v == Some(false) <==>
              cached.None? || cached.value !in store.files ||
              StillValid(foreign.readTtl(store.files[cached.value].content),
                         store.files[cached.value].mtime, now) == Some(false)
  {
    if cached.None? || cached.value !in store.files then Some(false)
    else
      var f := store.files[cached.value];
      StillValid(foreign.readTtl(f.content), f.mtime, now)
  }

  /** `shutil.copyfile(src, dst)`: copying a file onto itself raises
      SameFileError, which counts as success; any other failure exits with
      status 2. */
  function CopyCached(store: Store, src: Path, dst: Path, now: int): (c: Completion)
    requires src in store.files
    ensures c.end == Exit(0) || c.end == Exit(2)
    ensures c.end == Exit(2) <==> src != dst && dst !in store.writable
    ensures c.end == Exit(2) ==> c.store == store
    ensures c.end == Exit(0) ==> dst in c.store.files && c.store.files[dst].content == store.files[src].content
    ensures c.end == Exit(0) && src != dst ==> c.store == WriteFile(store, dst, store.files[src].content, now)
    ensures src == dst ==> c.store == store
  {
    if src == dst then Completion(Exit(0), store)
    else if dst in store.writable then Completion(Exit(0), WriteFile(store, dst, store.files[src].content, now))
    else Completion(Exit(2), store)
  }

  /** The `__main__` block after argument parsing. */
  function Run(foreign: Foreign, args: Args, store: Store, download: Option<Bytes>, now: int): (c: Completion)
    ensures c.end.Exit? ==> c.end.status == 0 || c.end.status == 1 || c.end.status == 2
    ensures c.end != Exit(0) ==> c.store == store
    ensures c.end == Exit(2) ==> CacheVerdict(foreign, store, args.cached, now) == Some(true)
    ensures c.end == Exit(1) ==> CacheVerdict(foreign, store, args.cached, now) == Some(false)
  {
    match CacheVerdict(foreign, store, args.cached, now)
    case None => Completion(Crashed(CacheUnparsable), store)
    case Some(true) => CopyCached(store, args.cached.value, args.output, now)
    case Some(false) =>
      var e := GetAndVerify(foreign, download, store, args.keys, args.output, now);
      match e.outcome
      case Written(_) => Completion(Exit(0), e.store)
      case Failed(_) => Completion(Exit(1), e.store)
      case Abort(crash) => Completion(Crashed(crash), e.store)
  }

  /** A fresh cache is reused with no network access: the run does not
      depend on the download, and on success the output holds the cached
      bytes. */
  lemma FreshCacheNeedsNoNetwork(foreign: Foreign, args: Args, store: Store, d1: Option<Bytes>, d2: Option<Bytes>, now: int)
    requires CacheVerdict(foreign, store, args.cached, now) == Some(true)
    ensures Run(foreign, args, store, d1, now) == Run(foreign, args, store, d2, now)
    ensures Run(foreign, args, store, d1, now) == CopyCached(store, args.cached.value, args.output, now)
    ensures Run(foreign, args, store, d1, now).end == Exit(0) ==>
              args.output in Run(foreign, args, store, d1, now).store.files &&
              Run(foreign, args, store, d1, now).store.files[args.output].content == store.files[args.cached.value].content
  {
  }

  /** The network path is taken exactly when the cache cannot be reused:
      then the run is `get_and_verify`, with success exiting 0, failure 1,
      and an exception ending the run, all with its effect on the store. */
  lemma StaleCacheFetches(foreign: Foreign, args: Args, store: Store, download: Option<Bytes>, now: int)
    requires CacheVerdict(foreign, store, args.cached, now) == Some(false)
    ensures var e := GetAndVerify(foreign, download, store, args.keys, args.output, now);
            var c := Run(foreign, args, store, download, now);
            && c.store == e.store
            && (c.end == Exit(0) <==> e.outcome.Written?)
            && (c.end == Exit(1) <==> e.outcome.Failed?)
            && (c.end.Crashed? <==> e.outcome.Abort?)
            && (e.outcome.Abort? ==> c.end == Crashed(e.outcome.crash))
  {
  }

  /** An unparsable cached file ends the run; it is not read as stale. */
  lemma UnparsableCacheAborts(foreign: Foreign, args: Args, store: Store, download: Option<Bytes>, now: int)
    requires args.cached.Some? && args.cached.value in store.files
    requires foreign.readTtl(store.files[args.cached.value].content).Malformed?
    ensures Run(foreign, args, store, download, now) == Completion(Crashed(CacheUnparsable), store)
  {
  }

  /** An unreachable URL with no usable cache exits 1 and leaves every file
      as it was. */
  lemma UnreachableUrlLeavesOutput(foreign: Foreign, args: Args, store: Store, now: int)
    requires CacheVerdict(foreign, store, args.cached, now) == Some(false)
    ensures Run(foreign, args, store, None, now) == Completion(Exit(1), store)
  {
  }
}

=== FILE: freshness.dfy ===
/** The cache freshness check of the metadata fetcher
    (tools/fetch_metadata.py, `still_valid`): a cached payload may be reused
    while the current time is strictly before its modification time plus
    the `cache_ttl` it declares, one hour when it declares none. Times are
    whole Unix seconds. */
module Freshness {
  import opened Wrappers

  /** The TTL used when the cached document has no `cache_ttl` member. */
  const DefaultTtl: int := 3600

  /** What loading the cached file as JSON and reading `cache_ttl` gives.
      `Malformed` stands for every exception on that path (the file is not
      JSON, not an object, or its `cache_ttl` is not a number); none is
      caught, so each ends the run. */
  datatype TtlField = Malformed | Absent | Seconds(n: int)

  /** The TTL in force, `None` when reading it raises. */
  function CacheTtl(f: TtlField): (ttl: Option<int>)
    ensures ttl.None? <==> f.Malformed?
    ensures f.Absent? ==> ttl == Some(DefaultTtl)
    ensures f.Seconds? ==> ttl == Some(f.n)
  {
    match f
    case Malformed => None
    case Absent => Some(DefaultTtl)
    case Seconds(n) => Some(n)
  }

  /** `still_valid`: `None` when it raises, otherwise whether the cached
      file with modification time `mtime` is fresh at time `now`. */
  function StillValid(f: TtlField, mtime: int, now: int): (valid: Option<bool>)
    ensures valid.None? <==> f.Malformed?
    ensures valid.Some? ==> (valid.value <==> now - mtime < CacheTtl(f).value)
  {
    match CacheTtl(f)
    case None => None
    case Some(ttl) => Some(now < mtime + ttl)
  }

  /** The window is strict: at exactly `mtime + ttl` the copy is stale, one
      second earlier it is fresh. */
  lemma FreshnessBoundary(f: TtlField, mtime: int)
    requires !f.Malformed?
    ensures StillValid(f, mtime, mtime + CacheTtl(f).value) == Some(false)
    ensures StillValid(f, mtime, mtime + CacheTtl(f).value - 1) == Some(true)
  {
  }

  /** Freshness only runs out: fresh now means fresh at every earlier time,
      stale now means stale at every later time. */
  lemma FreshnessMonotone(f: TtlField, mtime: int, now: int, later: int)
    requires now <= later
    ensures StillValid(f, mtime, later) == Some(true) ==> StillValid(f, mtime, now) == Some(true)
    ensures StillValid(f, mtime, now) == Some(false) ==> StillValid(f, mtime, later) == Some(false)
  {
  }

  /** Without `cache_ttl` a copy is fresh for exactly one hour; with
      `cache_ttl` 10 it is fresh 5 seconds after storage and stale after 15. */
  lemma FreshnessExamples(mtime: int)
    ensures forall now :: StillValid(Absent, mtime, now) == StillValid(Seconds(3600), mtime, now)
    ensures StillValid(Absent, mtime, mtime + 3599) == Some(true)
    ensures StillValid(Absent, mtime, mtime + 3600) == Some(false)
    ensures StillValid(Seconds(10), mtime, mtime + 5) == Some(true)
    ensures StillValid(Seconds(10), mtime, mtime + 15) == Some(false)
  {
  }
}

=== FILE: signatures.dfy ===
/** Evaluation of the `signatures` array of a JWS in the general JSON
    serialization (section 7.2.1 of RFC 7515), as the metadata fetcher does it
    (tools/fetch_metadata.py, `get_and_verify`, the loop over signatures).
    The two calls into the JOSE library are uninterpreted: they are the
    fields of `Jose`, and every statement below holds for all of them. */
module Signatures {
  import opened Wrappers
  import Delimited

  type Bytes = seq<bv8>

  /** One element of the `signatures` array. A member that is absent (or
      is not a string) is `None`. */
  datatype Entry = Entry(protected: Option<string>, signature: Option<string>)

  /** The decoded downloaded document: the shared `payload` member and the
      `signatures` array, each `None` when absent. */
  datatype Envelope = Envelope(payload: Option<string>, signatures: Option<seq<Entry>>)

  /** What reading `exp` from the unverified header of a compact token and
      converting it with `int` gives. */
  datatype ExpClaim =
    | Unreadable              // the library cannot decode the token: JWSError, caught
    | NoExp                   // the header has no `exp`: KeyError, not caught
    | Unconvertible           // `int(exp)` raises (null, list, object, "abc", "1.5"): not caught
    | ExpiresAt(seconds: int) // Unix seconds

  /** What `verify(compact, keys, None)` does: return the payload, raise
      JWSError (caught by the loop), or raise anything else (not caught). */
  datatype Verification = Payload(bytes: Bytes) | JwsError | OtherError

  /** The JOSE library: `get_unverified_headers(compact)['exp']` and
      `verify(compact, keys, None)`. */
  datatype Jose = Jose(headerExp: string -> ExpClaim, verify: (string, Bytes) -> Verification)

  /** Exceptions raised while evaluating one entry that the loop does not
      catch; each ends the whole run. */
  datatype Fault = MalformedEntry | MissingExp | UnconvertibleExp | VerifierRaised

  /** Why one entry was passed over (JWSError or expiry). */
  datatype Rejection = UnreadableHeader | Expired(at: int) | BadSignature

  datatype Verdict = Accept(payload: Bytes) | Reject(reason: Rejection) | Crash(fault: Fault)

  /** The outcome of the loop: the index and payload of the entry that
      verified, no entry verified, or the index and fault of the entry that
      raised. */
  datatype Selection = Verified(index: nat, payload: Bytes) | NoneValid | Aborted(index: nat, fault: Fault)

  /** The compact serialization handed to the library (section 7.1 of RFC 7515). */
  function Compact(protected: string, payload: string, signature: string): string
  {
    protected + "." + payload + "." + signature
  }

  /** Base64url text holds no '.', and for such parts the compact form
      determines the three parts. */
  lemma CompactUnambiguous(p: string, q: string, s: string, p': string, q': string, s': string)
    requires '.' !in p && '.' !in q && '.' !in s && '.' !in p' && '.' !in q' && '.' !in s'
    ensures Compact(p, q, s) == Compact(p', q', s') ==> p == p' && q == q' && s == s'
  {
    JoinOfThree(p, q, s);
    JoinOfThree(p', q', s');
    if Compact(p, q, s) == Compact(p', q', s') {
      assert Delimited.Free([p, q, s], '.') && Delimited.Free([p', q', s'], '.');
      Delimited.JoinInjective([p, q, s], [p', q', s'], '.');
    }
  }

  /** The compact form is the '.'-join of protected header, payload and
      signature. */
  lemma JoinOfThree(p: string, q: string, s: string)
    ensures Compact(p, q, s) == Delimited.Join([p, q, s], '.')
  {
    Delimited.JoinCons(q, [s], '.');
    assert [p] + [q, s] == [p, q, s];
    Delimited.JoinCons(p, [q, s], '.');
  }

  /** The compact form built from an entry and the shared payload. */
  function CompactOf(e: Entry, payload: string): string
    requires e.protected.Some? && e.signature.Some?
  {
    Compact(e.protected.value, payload, e.signature.value)
  }

  /** An `exp` strictly before `now` is expired; `exp == now` is not. */
  predicate IsExpired(exp: int, now: int)
  {
    exp < now
  }

  /** The entry is handed to the verifier: both members are present and the
      header carries an integer `exp` that has not passed. */
  predicate ReachesVerifier(jose: Jose, e: Entry, payload: string, now: int)
  {
    && e.protected.Some? && e.signature.Some?
    && jose.headerExp(CompactOf(e, payload)).ExpiresAt?
    && !IsExpired(jose.headerExp(CompactOf(e, payload)).seconds, now)
  }

  /** Both members are present, so the compact form can be built. */
  predicate WellFormed(e: Entry)
  {
    e.protected.Some? && e.signature.Some?
  }

  /** One iteration of the loop body. The entry is skipped exactly when it
      is well-formed and its header cannot be read, it has expired, or the
      verifier raises JWSError; the run is aborted exactly when a member is
      missing, `exp` is missing or `int()` cannot convert it, or the
      verifier raises anything else; the entry is accepted exactly when the
      verifier returns a payload, and then with that payload. */
  function Evaluate(jose: Jose, e: Entry, payload: string, keys: Bytes, now: int): (v: Verdict)
    ensures v.Reject? <==>
              WellFormed(e) &&
              (|| jose.headerExp(CompactOf(e, payload)).Unreadable?
               || (jose.headerExp(CompactOf(e, payload)).ExpiresAt? &&
                   IsExpired(jose.headerExp(CompactOf(e, payload)).seconds, now))
               || (ReachesVerifier(jose, e, payload, now) && jose.verify(CompactOf(e, payload), keys).JwsError?))
    ensures v.Crash? <==>
              || !WellFormed(e)
              || jose.headerExp(CompactOf(e, payload)).NoExp?
              || jose.headerExp(CompactOf(e, payload)).Unconvertible?
              || (ReachesVerifier(jose, e, payload, now) && jose.verify(CompactOf(e, payload), keys).OtherError?)
    ensures v.Accept? <==> ReachesVerifier(jose, e, payload, now) && jose.verify(CompactOf(e, payload), keys).Payload?
    ensures v.Accept? ==> v.payload == jose.verify(CompactOf(e, payload), keys).bytes
    ensures WellFormed(e) && jose.headerExp(CompactOf(e, payload)).ExpiresAt? &&
            IsExpired(jose.headerExp(CompactOf(e, payload)).seconds, now) ==>
              v == Reject(Expired(jose.headerExp(CompactOf(e, payload)).seconds))
  {
    if e.protected.None? || e.signature.None? then Crash(MalformedEntry)
    else
      var compact := CompactOf(e, payload);
      match jose.headerExp(compact)
      case Unreadable => Reject(UnreadableHeader)
      case NoExp => Crash(MissingExp)
      case Unconvertible => Crash(UnconvertibleExp)
      case ExpiresAt(t) =>
        if IsExpired(t, now) then Reject(Expired(t))
        else match jose.verify(compact, keys)
          case JwsError => Reject(BadSignature)
          case OtherError => Crash(VerifierRaised)
          case Payload(p) => Accept(p)
  }

  /** Only an entry that reaches the verifier can be accepted, and then with
      exactly what the verifier returned for its compact form; an expired
      entry is rejected whatever the verifier would have said. */
  lemma EvaluateConsultsVerifierOnlyWhenUnexpired(jose: Jose, e: Entry, payload: string, keys: Bytes, now: int,
                                                   otherVerify: (string, Bytes) -> Verification)
    ensures Evaluate(jose, e, payload, keys, now).Accept? ==>
              ReachesVerifier(jose, e, payload, now) &&
              jose.verify(CompactOf(e, payload), keys) == Payload(Evaluate(jose, e, payload, keys, now).payload)
    ensures !ReachesVerifier(jose, e, payload, now) ==>
              Evaluate(jose.(verify := otherVerify), e, payload, keys, now) == Evaluate(jose, e, payload, keys, now)
    ensures e.protected.Some? && e.signature.Some? && jose.headerExp(CompactOf(e, payload)) == ExpiresAt(now) ==>
              ReachesVerifier(jose, e, payload, now)
  {
  }

  /** The number of entries the loop passed over before it stopped. */
  function Passed(r: Selection, n: nat): nat
  {
    if r.NoneValid? then n else r.index
  }

  /** The loop from entry `i` on: the first entry that is accepted or raises
      decides; rejected entries are passed over. */
  function SelectFrom(jose: Jose, entries: seq<Entry>, payload: string, keys: Bytes, now: int, i: nat): (r: Selection)
    requires i <= |entries|
    ensures i <= Passed(r, |entries|) <= |entries|
    ensures r.Verified? ==> r.index < |entries| && Evaluate(jose, entries[r.index], payload, keys, now) == Accept(r.payload)
    ensures r.Aborted? ==> r.index < |entries| && Evaluate(jose, entries[r.index], payload, keys, now) == Crash(r.fault)
    ensures forall j | i <= j < Passed(r, |entries|) :: Evaluate(jose, entries[j], payload, keys, now).Reject?
    decreases |entries| - i
  {
    if i == |entries| then NoneValid
    else match Evaluate(jose, entries[i], payload, keys, now)
      case Accept(p) => Verified(i, p)
      case Crash(f) => Aborted(i, f)
      case Reject(_) => SelectFrom(jose, entries, payload, keys, now, i + 1)
  }

  function Select(jose: Jose, entries: seq<Entry>, payload: string, keys: Bytes, now: int): Selection
  {
    SelectFrom(jose, entries, payload, keys, now, 0)
  }

  /** Entry `k` is accepted with payload `p` and every entry before it is
      rejected. */
  predicate FirstAccepted(jose: Jose, entries: seq<Entry>, payload: string, keys: Bytes, now: int, k: nat, p: Bytes)
  {
    && k < |entries|
    && (forall j | 0 <= j < k :: Evaluate(jose, entries[j], payload, keys, now).Reject?)
    && Evaluate(jose, entries[k], payload, keys, now) == Accept(p)
  }

  /** First valid wins, in both directions: the selection is `Verified(k, p)`
      exactly when entry `k` is the first accepted one and gives `p`. */
  lemma FirstValidWins(jose: Jose, entries: seq<Entry>, payload: string, keys: Bytes, now: int, k: nat, p: Bytes)
    ensures Select(jose, entries, payload, keys, now) == Verified(k, p) <==>
            FirstAccepted(jose, entries, payload, keys, now, k, p)
  {
  }

  /** Entry `k` raises `f` and every entry before it is rejected. */
  predicate FirstCrashed(jose: Jose, entries: seq<Entry>, payload: string, keys: Bytes, now: int, k: nat, f: Fault)
  {
    && k < |entries|
    && (forall j | 0 <= j < k :: Evaluate(jose, entries[j], payload, keys, now).Reject?)
    && Evaluate(jose, entries[k], payload, keys, now) == Crash(f)
  }

  /** An uncaught exception ends the loop, in both directions: the selection
      is `Aborted(k, f)` exactly when entry `k` raises `f` and every entry
      before it is rejected, whatever follows it. */
  lemma FirstFaultAborts(jose: Jose, entries: seq<Entry>, payload: string, keys: Bytes, now: int, k: nat, f: Fault)
    ensures Select(jose, entries, payload, keys, now) == Aborted(k, f) <==>
            FirstCrashed(jose, entries, payload, keys, now, k, f)
  {
  }

  /** Exhaustion: nothing verifies exactly when every entry is rejected;
      in particular an empty array verifies nothing. */
  lemma NoneValidIffAllRejected(jose: Jose, entries: seq<Entry>, payload: string, keys: Bytes, now: int)
    ensures Select(jose, entries, payload, keys, now).NoneValid? <==>
            forall j | 0 <= j < |entries| :: Evaluate(jose, entries[j], payload, keys, now).Reject?
    ensures entries == [] ==> Select(jose, entries, payload, keys, now) == NoneValid
  {
  }

  /** Skip versus abort, at the level of the loop: an entry whose header
      cannot be read, that has expired, or that the verifier rejects with
      JWSError is passed over, so the loop goes on with the next entry; a
      missing member, a missing `exp`, an `exp` that `int()` cannot convert,
      or any other verifier exception ends the loop at that entry, whatever
      follows. */
  lemma EntryPassedOverOrFatal(jose: Jose, entries: seq<Entry>, payload: string, keys: Bytes, now: int, i: nat)
    requires i < |entries|
    ensures !WellFormed(entries[i]) ==> SelectFrom(jose, entries, payload, keys, now, i) == Aborted(i, MalformedEntry)
    ensures WellFormed(entries[i]) ==>
              var claim := jose.headerExp(CompactOf(entries[i], payload));
              && (claim.Unreadable? || (claim.ExpiresAt? && IsExpired(claim.seconds, now)) ==>
                    SelectFrom(jose, entries, payload, keys, now, i) == SelectFrom(jose, entries, payload, keys, now, i + 1))
              && (claim.NoExp? ==> SelectFrom(jose, entries, payload, keys, now, i) == Aborted(i, MissingExp))
              && (claim.Unconvertible? ==> SelectFrom(jose, entries, payload, keys, now, i) == Aborted(i, UnconvertibleExp))
    ensures ReachesVerifier(jose, entries[i], payload, now) ==>
              var answer := jose.verify(CompactOf(entries[i], payload), keys);
              && (answer.JwsError? ==>
                    SelectFrom(jose, entries, payload, keys, now, i) == SelectFrom(jose, entries, payload, keys, now, i + 1))
              && (answer.OtherError? ==> SelectFrom(jose, entries, payload, keys, now, i) == Aborted(i, VerifierRaised))
              && (answer.Payload? ==> SelectFrom(jose, entries, payload, keys, now, i) == Verified(i, answer.bytes))
  {
  }

  /** Nothing after the deciding entry is looked at: any array that agrees
      up to and including it decides the same way. */
  lemma {:induction false} LaterEntriesIgnored(jose: Jose, entries: seq<Entry>, other: seq<Entry>,
                                                payload: string, keys: Bytes, now: int, i: nat)
    requires i <= |entries|
    requires var r := SelectFrom(jose, entries, payload, keys, now, i);
             !r.NoneValid? && r.index < |other| && other[..r.index + 1] == entries[..r.index + 1]
    ensures i <= |other|
    ensures SelectFrom(jose, other, payload, keys, now, i) == SelectFrom(jose, entries, payload, keys, now, i)
    decreases |entries| - i
  {
    var k := SelectFrom(jose, entries, payload, keys, now, i).index;
    assert other[i] == other[..k + 1][i] == entries[..k + 1][i] == entries[i];
    if Evaluate(jose, entries[i], payload, keys, now).Reject? {
      LaterEntriesIgnored(jose, entries, other, payload, keys, now, i + 1);
    }
  }

  /** The verifier's answers matter only for entries that reach it: two
      verifiers that agree on those yield the same selection. */
  lemma {:induction false} OnlyUnexpiredEntriesReachVerifier(jose: Jose, otherVerify: (string, Bytes) -> Verification,
                                                              entries: seq<Entry>, payload: string, keys: Bytes,
                                                              now: int, i: nat)
    requires i <= |entries|
    requires forall j | i <= j < |entries| && ReachesVerifier(jose, entries[j], payload, now) ::
               otherVerify(CompactOf(entries[j], payload), keys) == jose.verify(CompactOf(entries[j], payload), keys)
    ensures SelectFrom(jose.(verify := otherVerify), entries, payload, keys, now, i)
         == SelectFrom(jose, entries, payload, keys, now, i)
    decreases |entries| - i
  {
    if i < |entries| {
      OnlyUnexpiredEntriesReachVerifier(jose, otherVerify, entries, payload, keys, now, i + 1);
    }
  }

  /** One call of the verifier, as recorded by `VerifyEntries`. */
  datatype Call = Call(index: nat, compact: string)

  /** The number of entries the loop looked at before it stopped. */
  function Examined(r: Selection, n: nat): nat
  {
    if r.NoneValid? then n else r.index + 1
  }

  /** Reference for the verifier calls a run over the first `n` entries
      makes: one per entry that reaches the verifier, in document order. */
  function VerifierCalls(jose: Jose, entries: seq<Entry>, payload: string, now: int, n: nat): seq<Call>
    requires n <= |entries|
  {
    if n == 0 then []
    else
      VerifierCalls(jose, entries, payload, now, n - 1) +
      (if ReachesVerifier(jose, entries[n - 1], payload, now)
       then [Call(n - 1, CompactOf(entries[n - 1], payload))] else [])
  }

  /** The call was legitimate: it was made on an entry that reaches the
      verifier, with that entry's compact form over the shared payload. */
  predicate Sanctioned(jose: Jose, entries: seq<Entry>, payload: string, now: int, c: Call)
  {
    && c.index < |entries|
    && ReachesVerifier(jose, entries[c.index], payload, now)
    && c.compact == CompactOf(entries[c.index], payload)
  }

  /** Expired entries never reach the verifier: every call in the reference
      list is sanctioned and concerns an entry below `n`, and the calls go in
      strictly increasing document order, so at most once per entry. */
  lemma {:induction false} VerifierCallsSanctioned(jose: Jose, entries: seq<Entry>, payload: string, now: int, n: nat)
    requires n <= |entries|
    ensures forall k | 0 <= k < |VerifierCalls(jose, entries, payload, now, n)| ::
              Sanctioned(jose, entries, payload, now, VerifierCalls(jose, entries, payload, now, n)[k]) &&
              VerifierCalls(jose, entries, payload, now, n)[k].index < n
    ensures forall k, l | 0 <= k < l < |VerifierCalls(jose, entries, payload, now, n)| ::
              VerifierCalls(jose, entries, payload, now, n)[k].index < VerifierCalls(jose, entries, payload, now, n)[l].index
  {
    if n > 0 {
      VerifierCallsSanctioned(jose, entries, payload, now, n - 1);
      var prev := VerifierCalls(jose, entries, payload, now, n - 1);
      var cs := VerifierCalls(jose, entries, payload, now, n);
      assert forall k | 0 <= k < |prev| :: cs[k] == prev[k];
      assert |cs| > |prev| ==> cs[|prev|] == Call(n - 1, CompactOf(entries[n - 1], payload));
    }
  }

  /** Every entry below `n` that reaches the verifier is in the reference
      list of calls. */
  lemma {:induction false} VerifierCallsComplete(jose: Jose, entries: seq<Entry>, payload: string, now: int, n: nat)
    requires n <= |entries|
    ensures forall j | 0 <= j < n && ReachesVerifier(jose, entries[j], payload, now) ::
              Call(j, CompactOf(entries[j], payload)) in VerifierCalls(jose, entries, payload, now, n)
  {
    if n > 0 {
      VerifierCallsComplete(jose, entries, payload, now, n - 1);
      var prev := VerifierCalls(jose, entries, payload, now, n - 1);
      var cs := VerifierCalls(jose, entries, payload, now, n);
      assert cs == prev + cs[|prev|..];
    }
  }

  /** The body of the loop's `try` block for one entry, as the program runs
      it: the verdict is the reference `Evaluate`, and the verifier is
      called, with the entry's compact form, exactly when the entry reaches
      it. */
  method EvaluateEntry(jose: Jose, e: Entry, payload: string, keys: Bytes, now: int)
    returns (v: Verdict, called: Option<string>)
    ensures v == Evaluate(jose, e, payload, keys, now)
    ensures called.Some? <==> ReachesVerifier(jose, e, payload, now)
    ensures called.Some? ==> called.value == CompactOf(e, payload)
  {
    called := None;
    if e.protected.None? || e.signature.None? {
      return Crash(MalformedEntry), called;
    }
    var compact := Compact(e.protected.value, payload, e.signature.value);
    var claim := jose.headerExp(compact);
    if claim.Unreadable? {
      return Reject(UnreadableHeader), called;
    }
    if claim.NoExp? {
      return Crash(MissingExp), called;
    }
    if claim.Unconvertible? {
      return Crash(UnconvertibleExp), called;
    }
    if IsExpired(claim.seconds, now) {
      return Reject(Expired(claim.seconds)), called;
    }
    called := Some(compact);
    var verified := jose.verify(compact, keys);
    if verified.JwsError? {
      return Reject(BadSignature), called;
    }
    if verified.OtherError? {
      return Crash(VerifierRaised), called;
    }
    v := Accept(verified.bytes);
  }

  /** The loop as the program runs it, instrumented with the list of
      verifier calls it makes. The selection is the one `Select` defines and
      the calls are exactly the reference calls up to and including the
      deciding entry; the calls are moreover sanctioned, in document order
      and never past the deciding entry. */
  method VerifyEntries(jose: Jose, entries: seq<Entry>, payload: string, keys: Bytes, now: int)
    returns (r: Selection, calls: seq<Call>)
    ensures r == Select(jose, entries, payload, keys, now)
    ensures Examined(r, |entries|) <= |entries|
    ensures calls == VerifierCalls(jose, entries, payload, now, Examined(r, |entries|))
    ensures forall k | 0 <= k < |calls| ::
              Sanctioned(jose, entries, payload, now, calls[k]) && calls[k].index < Examined(r, |entries|)
  {
    calls := [];
    var i := 0;
    while i < |entries|
      invariant i <= |entries|
      invariant SelectFrom(jose, entries, payload, keys, now, i) == Select(jose, entries, payload, keys, now)
      invariant calls == VerifierCalls(jose, entries, payload, now, i)
    {
      var v, called := EvaluateEntry(jose, entries[i], payload, keys, now);
      if called.Some? {
        calls := calls + [Call(i, called.value)];
      }
      assert calls == VerifierCalls(jose, entries, payload, now, i + 1);
      match v
      case Accept(p) =>
        VerifierCallsSanctioned(jose, entries, payload, now, i + 1);
        return Verified(i, p), calls;
      case Crash(f) =>
        VerifierCallsSanctioned(jose, entries, payload, now, i + 1);
        return Aborted(i, f), calls;
      case Reject(_) =>
        i := i + 1;
    }
    VerifierCallsSanctioned(jose, entries, payload, now, i);
    r := NoneValid;
  }
}

=== FILE: tags.dfy ===
/** The tag-list splitter of the command-line client (src/get.cpp,
    `parse_tags`): repeated `std::getline(stream, token, ',')` on a string
    stream, pushing every extracted token. */
module Tags {
  import opened Delimited

  /** What one successful `std::getline` call yields: the token and the
      stream position after it (past the delimiter when one was consumed). */
  datatype Extracted = Extracted(token: string, next: nat)

  /** One `std::getline(ss, token, ',')` on a stream at position `i`. The
      call succeeds exactly when at least one character is left, which is
      the `requires`; at the end of input it fails and the loop stops. */
  function Getline(s: string, i: nat): (x: Extracted)
    requires i < |s|
    ensures i < x.next <= |s|
    ensures ',' !in x.token
    ensures if s[x.next - 1] == ',' then s[i..x.next] == x.token + [',']
            else x.next == |s| && s[i..] == x.token
  {
    var j := Find(s, ',', i);
    assert forall k | 0 <= k < j - i :: s[i..j][k] == s[i + k];
    Extracted(s[i..j], if j < |s| then j + 1 else j)
  }

  /** The tokens the `while (std::getline(...))` loop pushes when started at
      position `i`. */
  function TagsFrom(s: string, i: nat): seq<string>
    requires i <= |s|
    decreases |s| - i
  {
    if i == |s| then []
    else
      var x := Getline(s, i);
      [x.token] + TagsFrom(s, x.next)
  }

  /** `parse_tags(tag_spec)`: its result is a tokenization of the input. */
  function ParseTags(s: string): (tags: seq<string>)
    ensures Tokenizes(tags, s)
  {
    TagsFromTokenizes(s, 0);
    assert s[0..] == s;
    TagsFrom(s, 0)
  }

  predicate EndsWithComma(s: string)
  {
    |s| > 0 && s[|s| - 1] == ','
  }

  /** The relation between a tag specification and the list it stands for,
      stated without reference to the stream: no token holds a comma, joining
      the tokens with "," gives the specification back (less the one
      trailing comma that getline swallows), and only the empty
      specification has no tokens. */
  predicate Tokenizes(tokens: seq<string>, s: string)
  {
    && Free(tokens, ',')
    && (if s == "" then tokens == []
        else |tokens| > 0 &&
             if EndsWithComma(s) then Join(tokens, ',') + "," == s
             else Join(tokens, ',') == s)
  }

  /** The loop from any position yields the tokenization of the rest of the
      input. */
  lemma {:induction false} TagsFromTokenizes(s: string, i: nat)
    requires i <= |s|
    ensures Tokenizes(TagsFrom(s, i), s[i..])
    decreases |s| - i
  {
    if i < |s| {
      var x := Getline(s, i);
      var rest := TagsFrom(s, x.next);
      assert TagsFrom(s, i) == [x.token] + rest;
      if x.next == |s| {
        assert rest == [];
        assert [x.token] + rest == [x.token];
        assert Free([x.token], ',');
      } else {
        TagsFromTokenizes(s, x.next);
        assert s[i..] == x.token + "," + s[x.next..] by {
          assert s[i..] == s[i..x.next] + s[x.next..];
        }
        TokenizesCons(x.token, rest, s[x.next..]);
      }
    }
  }

  /** A comma-free token, a comma and a tokenized non-empty rest make a
      tokenized whole. */
  lemma TokenizesCons(a: string, rest: seq<string>, tail: string)
    requires ',' !in a && tail != "" && Tokenizes(rest, tail)
    ensures Tokenizes([a] + rest, a + "," + tail)
  {
    FreeCons(a, rest, ',');
    JoinCons(a, rest, ',');
    var whole := a + "," + tail;
    assert EndsWithComma(whole) == EndsWithComma(tail);
    if EndsWithComma(tail) {
      assert whole == a + "," + (Join(rest, ',') + ",");
    }
  }

  /** A tokenization is unique: the comma-free token list whose join gives the
      input back is exactly what `parse_tags` returns. */
  lemma ParseTagsUnique(s: string, tokens: seq<string>)
    requires Tokenizes(tokens, s)
    ensures tokens == ParseTags(s)
  {
    var p := ParseTags(s);
    if s != "" {
      if EndsWithComma(s) {
        assert Join(tokens, ',') == s[..|s| - 1] == Join(p, ',') by {
          assert (Join(tokens, ',') + ",")[..|s| - 1] == Join(tokens, ',');
          assert (Join(p, ',') + ",")[..|s| - 1] == Join(p, ',');
        }
      }
      JoinInjective(tokens, p, ',');
    }
  }

  /** Round trip: the tokens joined with "," are the input, or the input
      without its final comma when it ends with one. */
  lemma ParseTagsRoundTrip(s: string)
    ensures !EndsWithComma(s) ==> Join(ParseTags(s), ',') == s
    ensures EndsWithComma(s) ==> Join(ParseTags(s), ',') + "," == s
  {
  }

  /** No returned token contains a comma; empty input gives no tokens. */
  lemma ParseTagsTokens(s: string)
    ensures forall k | 0 <= k < |ParseTags(s)| :: ',' !in ParseTags(s)[k]
    ensures ParseTags(s) == [] <==> s == ""
  {
  }

  /** Token count: one more than the commas, less one when the input ends
      with a comma. */
  lemma ParseTagsCount(s: string)
    requires s != ""
    ensures |ParseTags(s)| == multiset(s)[','] + 1 - (if EndsWithComma(s) then 1 else 0)
  {
    var p := ParseTags(s);
    JoinCount(p, ',');
    if EndsWithComma(s) {
      assert multiset(s) == multiset(Join(p, ',')) + multiset(",");
    }
  }

  /** Empty fields between commas are kept. */
  lemma ParseTagsKeepsInnerEmptyField()
    ensures ParseTags("a,,b") == ["a", "", "b"]
  {
    assert Join(["", "b"], ',') == ",b" by { JoinCons("", ["b"], ','); }
    JoinCons("a", ["", "b"], ',');
    assert Tokenizes(["a", "", "b"], "a,,b");
    ParseTagsUnique("a,,b", ["a", "", "b"]);
  }

  /** A leading empty field is kept, so a lone comma is one empty tag. */
  lemma ParseTagsKeepsLeadingEmptyField()
    ensures ParseTags(",") == [""]
    ensures ParseTags(",a") == ["", "a"]
  {
    assert Tokenizes([""], ",");
    ParseTagsUnique(",", [""]);
    JoinCons("", ["a"], ',');
    assert Tokenizes(["", "a"], ",a");
    ParseTagsUnique(",a", ["", "a"]);
  }

  /** A single trailing comma adds no field; a doubled one adds one. */
  lemma ParseTagsDropsOneTrailingField()
    ensures ParseTags("a,b,") == ["a", "b"]
    ensures ParseTags("a,,") == ["a", ""]
  {
    JoinCons("a", ["b"], ',');
    assert Tokenizes(["a", "b"], "a,b,");
    ParseTagsUnique("a,b,", ["a", "b"]);
    JoinCons("a", [""], ',');
    assert Tokenizes(["a", ""], "a,,");
    ParseTagsUnique("a,,", ["a", ""]);
  }
}

=== FILE: wrappers.dfy ===
/** The optional-value datatype used wherever the modelled program may find
    nothing: a missing JSON member, a failed download, a rejected signature. */
module Wrappers {

  datatype Option<+T> = None | Some(value: T)
}
